=== FILE: README.md ===
# Recovery method config: a Dafny model

This project models the generated Ory Kratos API type for a recovery method's
form payload, `RecoveryFlowMethodConfig`. It has a form `action` URL, an HTTP
`method`, the UI `nodes` and optional flow-level `messages`. The project also
models its wrapper `NullableRecoveryFlowMethodConfig`, which holds a pointer
and an `isSet` flag. Then it proves what the generated accessors, setters and
JSON hooks promise.

Modules:

- `Wrappers` (Wrappers.dfy): `Option`. It stands for Go's nil-versus-non-nil slices.
- `Json` (Json.dfy): JSON at the level of values (`Value`, `Document`). The
  UI node and UI text element types are the opaque type parameters `N` and `M`.
- `HttpClient` (HttpClient.dfy): the pieces of the Go struct.
  - The value a value receiver sees is the `Config` datatype.
  - A pointer to the struct is the class `RecoveryFlowMethodConfig`. Its setters
    update its fields in place.
  - The nil-tolerant getters are functions over the nullable reference
    `RecoveryFlowMethodConfig?`.
  - `MarshalJSON` is the key→value map the method builds.
  - `DecodeObject` gives what `json.Unmarshal` does to the struct when it
    decodes an object's members field by field.
- `Nullable` (NullableConfig.dfy): the wrapper class with `Get`, `Set`,
  `IsSet`, `Unset`, its constructor, `MarshalJSON` and `UnmarshalJSON`.
- `Properties` (Properties.dfy): lemmas that relate these operations.

Action, method and nodes are required by the API, but nothing in the code
checks them. The comment on `NewRecoveryFlowMethodConfigWithDefaults`
(internal/httpclient/model_recovery_flow_method_config.go:40-42) says it does
not guarantee that the required properties are set. It returns a config with an
empty action, an empty method and nil nodes, and so does `WithDefaults` here.

Facts of the code that the model makes explicit:

- The getters and the `…Ok` variants work on a nil receiver and then return the
  zero value, or nil and false. The setters dereference the receiver, so in Go
  they panic on nil. Here they are methods of a non-null object.
- `GetActionOk`, `GetMethodOk` and `GetNodesOk` report true for every non-nil
  receiver, even when the value is `""` or nil. Only `Messages` tracks presence.
- `MarshalJSON` builds a map, so the struct tag `omitempty` plays no part.
  `nodes` is emitted as null when nil. `messages` is emitted exactly when it is
  non-nil, even when it is empty.
- `UnmarshalJSON` marks the wrapper set, whatever the input and even on an error.
  The decoder's effect is modelled as follows:
  - null makes the pointer nil.
  - Any other valid input first allocates a zero config if the pointer is nil.
  - An object is decoded into the config the pointer already refers to. So
    absent keys, null strings and values of the wrong kind leave the old field
    values in place.
  - Invalid JSON changes nothing else.

## Model

| member | source | states |
|---|---|---|
| `HttpClient.RecoveryFlowMethodConfig.New` | internal/httpclient/model_recovery_flow_method_config.go:32-38 | the new config holds the given action, method and nodes, and its messages are nil, so `HasMessages` is false |
| `HttpClient.RecoveryFlowMethodConfig.WithDefaults` | internal/httpclient/model_recovery_flow_method_config.go:43-46 | the new config is the zero value (empty action and method, nil nodes and messages) and no error is raised |
| `HttpClient.RecoveryFlowMethodConfig.SetAction` | internal/httpclient/model_recovery_flow_method_config.go:67-70 | afterwards `GetAction` returns the new value and the other three fields are unchanged |
| `HttpClient.RecoveryFlowMethodConfig.SetMessages` | internal/httpclient/model_recovery_flow_method_config.go:99-102 | afterwards `GetMessages` returns the new value (nil included) and the other three fields are unchanged |
| `HttpClient.RecoveryFlowMethodConfig.SetMethod` | internal/httpclient/model_recovery_flow_method_config.go:123-126 | afterwards `GetMethod` returns the new value and the other three fields are unchanged |
| `HttpClient.RecoveryFlowMethodConfig.SetNodes` | internal/httpclient/model_recovery_flow_method_config.go:147-150 | afterwards `GetNodes` returns the new value (nil included) and the other three fields are unchanged |
| `HttpClient.GetAction` | internal/httpclient/model_recovery_flow_method_config.go:49-56 | `""` on a nil receiver, the action otherwise |
| `HttpClient.GetActionOk` | internal/httpclient/model_recovery_flow_method_config.go:60-65 | the flag is true exactly when the receiver is non-nil, and a value is returned exactly then, equal to `GetAction` |
| `HttpClient.GetMessages` | internal/httpclient/model_recovery_flow_method_config.go:73-79 | nil on a nil receiver, the messages (nil when unset) otherwise |
| `HttpClient.GetMessagesOk` | internal/httpclient/model_recovery_flow_method_config.go:83-88 | the flag is true exactly when the receiver and its messages are non-nil, a value is returned exactly then, and the value equals `GetMessages` |
| `HttpClient.HasMessages` | internal/httpclient/model_recovery_flow_method_config.go:91-97 | true exactly when the receiver is non-nil and its messages are non-nil |
| `HttpClient.GetMethod` | internal/httpclient/model_recovery_flow_method_config.go:105-112 | `""` on a nil receiver, the method otherwise |
| `HttpClient.GetMethodOk` | internal/httpclient/model_recovery_flow_method_config.go:116-121 | the flag is true exactly when the receiver is non-nil, and a value is returned exactly then, equal to `GetMethod` |
| `HttpClient.GetNodes` | internal/httpclient/model_recovery_flow_method_config.go:129-136 | nil on a nil receiver, the nodes field as it is (nil included) otherwise |
| `HttpClient.GetNodesOk` | internal/httpclient/model_recovery_flow_method_config.go:140-145 | the flag is true exactly when the receiver is non-nil, even when the nodes are nil; the value equals `GetNodes` |
| `HttpClient.MarshalJSON` | internal/httpclient/model_recovery_flow_method_config.go:152-167 | the keys are `action`, `method` and `nodes` always, plus `messages` exactly when the messages are non-nil; each key holds its field's value, and nil nodes are stored as null |
| `HttpClient.DecodeObject` | internal/httpclient/model_recovery_flow_method_config.go:19-26 | decoding an object into a config by the fields' JSON keys: a string, or an array or null for a slice, replaces the field; an absent key, a null string or a value of the wrong kind keeps the old value; exactly the known keys holding values of the wrong kind are reported |
| `Nullable.NullableRecoveryFlowMethodConfig.constructor` | internal/httpclient/model_recovery_flow_method_config.go:192-194 | the new wrapper returns the given pointer from `Get` and is set |
| `Nullable.NullableRecoveryFlowMethodConfig.Get` | internal/httpclient/model_recovery_flow_method_config.go:174-176 | returns the wrapped pointer |
| `Nullable.NullableRecoveryFlowMethodConfig.IsSet` | internal/httpclient/model_recovery_flow_method_config.go:183-185 | returns the flag |
| `Nullable.NullableRecoveryFlowMethodConfig.Set` | internal/httpclient/model_recovery_flow_method_config.go:178-181 | afterwards `Get` returns the given pointer and `IsSet` is true; the config pointed to is untouched |
| `Nullable.NullableRecoveryFlowMethodConfig.Unset` | internal/httpclient/model_recovery_flow_method_config.go:187-190 | afterwards `Get` is nil and `IsSet` is false |
| `Nullable.NullableRecoveryFlowMethodConfig.MarshalJSON` | internal/httpclient/model_recovery_flow_method_config.go:196-198 | null exactly when the pointer is nil, otherwise the wrapped config's `MarshalJSON` object |
| `Nullable.NullableRecoveryFlowMethodConfig.UnmarshalJSON` | internal/httpclient/model_recovery_flow_method_config.go:200-203 | always leaves the wrapper set. Invalid JSON: a syntax error, nothing else changed. null: the pointer becomes nil and the config it held is untouched, no error. Another non-object: a zero config is allocated if the pointer was nil, and the error is returned. An object: it is decoded into the existing config, or into a fresh zero one, and the error lists the mismatched keys |
| `Properties.NilReceiverGivesZeroValues` | internal/httpclient/model_recovery_flow_method_config.go:49-145 | on a nil receiver every getter gives `""` or nil, every `…Ok` getter gives nil and false, and `HasMessages` is false |
| `Properties.PresenceReporting` | internal/httpclient/model_recovery_flow_method_config.go:58-145 | a non-nil receiver reports action, method and nodes present; `HasMessages` agrees with the flag of `GetMessagesOk` and with `GetMessages` being non-nil |
| `Properties.MessagesEmittedIffSet` | internal/httpclient/model_recovery_flow_method_config.go:152-167 | the serialised object has `messages` exactly when `HasMessages` holds |
| `Properties.MarshalRoundTrip` | internal/httpclient/model_recovery_flow_method_config.go:152-167 | decoding the serialised object into a zero config gives back the config, with no type error |
| `Properties.MarshalDecodeIntoExisting` | internal/httpclient/model_recovery_flow_method_config.go:200-203 | decoding a serialised object into an existing config replaces every field, except that the old messages survive when the serialised config had none |
| `Properties.MarshalIsCanonical` | internal/httpclient/model_recovery_flow_method_config.go:152-167 | every serialised object has only the four known keys, the three required ones, strings for action and method, an array or null for nodes and an array for messages |
| `Properties.DecodeMarshalRoundTrip` | internal/httpclient/model_recovery_flow_method_config.go:152-167 | a canonical object decodes without a type error into a config whose serialisation is that object again |
| `Properties.CanonicalIffSerialised` | internal/httpclient/model_recovery_flow_method_config.go:152-167 | an object is canonical if and only if some config serialises to it |
| `Properties.MarshalInjective` | internal/httpclient/model_recovery_flow_method_config.go:152-167 | two configs with the same serialised map are equal, so nil and empty messages are told apart |
| `Properties.NullableMarshalIgnoresIsSet` | internal/httpclient/model_recovery_flow_method_config.go:196-198 | two wrappers holding the same pointer serialise alike, whatever their `isSet` |
| `Properties.NullableRoundTrip` | internal/httpclient/model_recovery_flow_method_config.go:192-203 | serialise a config through a wrapper, then unmarshal the result into a wrapper holding nil: this gives back the same field values, with no error |

## Left out

- Byte-level JSON. `json.Marshal` and `json.Unmarshal` (lines 166, 197 and 202) are modelled as the values they build or take apart. Escaping, the sorted key order of the output and the parser are not modelled.
- `HttpClient.DecodeObject`: keys match the fields exactly. `encoding/json` also accepts a key that differs only in case.
- `HttpClient.DecodeObject`: the elements of the node and text arrays are opaque, so an array is taken as already decoded to the field's element type. The model does not capture two `encoding/json` behaviours here. An empty array is accepted for either slice. Array elements are decoded into the existing elements of a non-nil slice.
- `HttpClient.DecodeObject`: an array of texts under `nodes`, or an array of nodes under `messages`, is treated as a value of the wrong kind. The model keeps the old slice and reports the key. `encoding/json` has no array-level type mismatch for a slice field: any JSON array replaces the slice, its length becomes the array's, and errors can only come from decoding the elements.
- `HttpClient.RecoveryFlowMethodConfig.SetMessages`, `HttpClient.RecoveryFlowMethodConfig.SetNodes`, `HttpClient.GetMessages`, `HttpClient.GetMessagesOk`, `HttpClient.GetNodes` and `HttpClient.GetNodesOk`: slice contents are modelled as values. In Go the setters store the caller's slice and the getters return the field's own slice, so a write to an element through either side is visible in the struct. The model does not capture that aliasing.
- `HttpClient.MarshalJSON`, `Nullable.NullableRecoveryFlowMethodConfig.MarshalJSON`, `Properties.MarshalRoundTrip`, `Properties.DecodeMarshalRoundTrip`, `Properties.MarshalInjective` and `Properties.NullableRoundTrip`: UI nodes and UI texts are stored in the JSON values unchanged. So these members assume three things about the elements: each one survives `json.Marshal` followed by `json.Unmarshal` unchanged, two different elements never serialise alike, and marshalling an element never fails. Go promises none of these. The `error` result of both `MarshalJSON` methods (lines 152-166 and 196-197), which can only come from an element's own marshalling, is not modelled.
- `Properties.MarshalRoundTrip`, `Properties.MarshalDecodeIntoExisting`, `Properties.MarshalInjective` and `Properties.NullableRoundTrip`: `action` and `method` are modelled as Dafny strings. These hold only Unicode scalar values, so they stand for valid UTF-8 only. A Go string can hold any bytes, and `json.Marshal` replaces invalid UTF-8 with U+FFFD. So in Go a config whose action or method is not valid UTF-8 does not round-trip, and two such configs can serialise alike. The model states these lemmas for valid UTF-8 only.
- `Nullable.NullableRecoveryFlowMethodConfig.UnmarshalJSON`: reports the set of keys whose value had the wrong kind. `encoding/json` reports only the first one in document order, and the key→value map does not keep that order.
- `HttpClient.GetActionOk` and `HttpClient.GetMethodOk` return a pointer into the struct, so a write through it changes the field. The model returns the value and does not capture that aliasing.
- The setters on a nil receiver: Go panics. They are modelled as methods of a non-null object only.
- The zero value of `NullableRecoveryFlowMethodConfig` (nil pointer, not set) is reachable in Go without a constructor. It is not modelled separately, since `Unset` produces the same state.
- The internals of `UiNode` and `UiText`. They are defined in other generated files, which are not part of this model.
- persistence/sql/migratest/migration_test.go is not part of this model. It is a database integration test: it provisions containers, runs migrations, reads fixture files and compares JSON.

=== FILE: HttpClient.dfy ===
/**
 * The generated API model for a recovery method's form payload: the
 * `RecoveryFlowMethodConfig` object (form action URL, HTTP method, UI nodes
 * and optional flow-level messages) and its `NullableRecoveryFlowMethodConfig`
 * wrapper.
 *
 * Go's nil slices are `None` and its nil receivers are `null`; the UI node
 * and UI text element types are the opaque type parameters N and M.
 */
module HttpClient {
  import opened Wrappers
  import opened Json

  /** The JSON keys of the four fields, as their struct tags name them. */
  const ActionKey: string := "action"
  const MessagesKey: string := "messages"
  const MethodKey: string := "method"
  const NodesKey: string := "nodes"

  /** The value of a config: what a value receiver such as MarshalJSON sees. */
  datatype Config<N, M> = Config(
    Action: string,
    Messages: Option<seq<M>>,
    Method: string,
    Nodes: Option<seq<N>>)

  /** Go's zero value of the struct: empty strings and nil slices. */
  function ZeroConfig<N, M>(): (c: Config<N, M>)
  {
    Config("", None, "", None)
  }

  /** The struct, reached through a pointer whose setters update it in place. */
  class RecoveryFlowMethodConfig<N, M> {
    var Action: string
    var Messages: Option<seq<M>>
    var Method: string
    var Nodes: Option<seq<N>>

    /** The current field values. */
    function State(): (c: Config<N, M>)
      reads this
    {
      Config(Action, Messages, Method, Nodes)
    }

    /** NewRecoveryFlowMethodConfig: sets the three required fields, leaves Messages nil. */
    constructor New(action: string, httpMethod: string, nodes: Option<seq<N>>)
      ensures State() == Config(action, None, httpMethod, nodes)
      ensures !HasMessages(this)
    {
      Action := action;
      Messages := None;
      Method := httpMethod;
      Nodes := nodes;
    }

    /**
     * NewRecoveryFlowMethodConfigWithDefaults: the zero value. Nothing checks
     * that the required fields are then set.
     */
    constructor WithDefaults()
      ensures State() == ZeroConfig()
      ensures !HasMessages(this)
    {
      Action := "";
      Messages := None;
      Method := "";
      Nodes := None;
    }

    method SetAction(v: string)
      modifies this
      ensures State() == old(State()).(Action := v)
      ensures GetAction(this) == v
    {
      Action := v;
    }

    method SetMessages(v: Option<seq<M>>)
      modifies this
      ensures State() == old(State()).(Messages := v)
      ensures GetMessages(this) == v
    {
      Messages := v;
    }

    method SetMethod(v: string)
      modifies this
      ensures State() == old(State()).(Method := v)
      ensures GetMethod(this) == v
    {
      Method := v;
    }

    method SetNodes(v: Option<seq<N>>)
      modifies this
      ensures State() == old(State()).(Nodes := v)
      ensures GetNodes(this) == v
    {
      Nodes := v;
    }
  }

  // Getters. They take a possibly nil receiver and then return the zero value.

  function GetAction<N, M>(o: RecoveryFlowMethodConfig?<N, M>): (r: string)
    reads o
    ensures o == null ==> r == ""
    ensures o != null ==> r == o.Action
  {
    if o == null then "" else o.Action
  }

  /**
   * GetActionOk: a pointer to the field and true, or nil and false on a nil
   * receiver. The field is required, so any non-nil receiver reports it present.
   */
  function GetActionOk<N, M>(o: RecoveryFlowMethodConfig?<N, M>): (r: (Option<string>, bool))
    reads o
    ensures r.1 <==> o != null
    ensures r.0.Some? <==> o != null
    ensures r.0.Some? ==> r.0.value == GetAction(o)
  {
    if o == null then (None, false) else (Some(o.Action), true)
  }

  /** GetMessages: the messages when set, nil otherwise. */
  function GetMessages<N, M>(o: RecoveryFlowMethodConfig?<N, M>): (r: Option<seq<M>>)
    reads o
    ensures o == null ==> r == None
    ensures o != null ==> r == o.Messages
  {
    if o == null || o.Messages.None? then None else o.Messages
  }

  /** GetMessagesOk: the messages and true when set, nil and false otherwise. */
  function GetMessagesOk<N, M>(o: RecoveryFlowMethodConfig?<N, M>): (r: (Option<seq<M>>, bool))
    reads o
    ensures r.1 <==> o != null && o.Messages.Some?
    ensures r.1 <==> r.0.Some?
    ensures r.0 == GetMessages(o)
  {
    if o == null || o.Messages.None? then (None, false) else (o.Messages, true)
  }

  /** HasMessages: the only field with real presence tracking. */
  function HasMessages<N, M>(o: RecoveryFlowMethodConfig?<N, M>): (r: bool)
    reads o
    ensures r <==> o != null && o.Messages.Some?
  {
    o != null && o.Messages.Some?
  }

  function GetMethod<N, M>(o: RecoveryFlowMethodConfig?<N, M>): (r: string)
    reads o
    ensures o == null ==> r == ""
    ensures o != null ==> r == o.Method
  {
    if o == null then "" else o.Method
  }

  /** GetMethodOk: like GetActionOk, for the method field. */
  function GetMethodOk<N, M>(o: RecoveryFlowMethodConfig?<N, M>): (r: (Option<string>, bool))
    reads o
    ensures r.1 <==> o != null
    ensures r.0.Some? <==> o != null
    ensures r.0.Some? ==> r.0.value == GetMethod(o)
  {
    if o == null then (None, false) else (Some(o.Method), true)
  }

  function GetNodes<N, M>(o: RecoveryFlowMethodConfig?<N, M>): (r: Option<seq<N>>)
    reads o
    ensures o == null ==> r == None
    ensures o != null ==> r == o.Nodes
  {
    if o == null then None else o.Nodes
  }

  /** GetNodesOk: reports the nodes present on every non-nil receiver, even when they are nil. */
  function GetNodesOk<N, M>(o: RecoveryFlowMethodConfig?<N, M>): (r: (Option<seq<N>>, bool))
    reads o
    ensures r.1 <==> o != null
    ensures r.0 == GetNodes(o)
  {
    if o == null then (None, false) else (o.Nodes, true)
  }

  // Serialisation.

  /** How a slice field is stored: a nil slice becomes null, any other an array. */
  function NodesValue<N, M>(nodes: Option<seq<N>>): (v: Value<N, M>)
  {
    match nodes
    case None => Null
    case Some(ns) => NodeArray(ns)
  }

  /**
   * MarshalJSON's key→value map (the value receiver sees a Config). The three
   * required keys are always there, `nodes` as null when the slice is nil;
   * `messages` is there exactly when the slice is non-nil, even when it is
   * empty, since the map bypasses the struct tag's omitempty.
   */
  function MarshalJSON<N, M>(c: Config<N, M>): (m: map<string, Value<N, M>>)
    ensures m.Keys == {ActionKey, MethodKey, NodesKey} + (if c.Messages.Some? then {MessagesKey} else {})
    ensures m[ActionKey] == Str(c.Action)
    ensures m[MethodKey] == Str(c.Method)
    ensures c.Nodes.None? <==> m[NodesKey] == Null
    ensures c.Nodes.Some? ==> m[NodesKey] == NodeArray(c.Nodes.value)
    ensures c.Messages.Some? ==> m[MessagesKey] == TextArray(c.Messages.value)
  {
    var required := map[ActionKey := Str(c.Action), MethodKey := Str(c.Method), NodesKey := NodesValue(c.Nodes)];
    if c.Messages.Some? then required[MessagesKey := TextArray(c.Messages.value)] else required
  }

  // Decoding an object into the struct, as encoding/json does it field by field.

  /** The outcome of decoding an object: the new field values and the keys whose value had the wrong kind. */
  datatype Decoded<N, M> = Decoded(config: Config<N, M>, mismatched: set<string>)

  /** A string field: a string replaces it, null leaves it, anything else is a type error. */
  function DecodeString<N, M>(prev: string, m: map<string, Value<N, M>>, key: string): (r: (string, bool))
  {
    if key !in m then (prev, true)
    else match m[key]
      case Str(s) => (s, true)
      case Null => (prev, true)
      case _ => (prev, false)
  }

  /** The nodes field: an array of nodes replaces it, null makes it nil, anything else is a type error. */
  function DecodeNodes<N, M>(prev: Option<seq<N>>, m: map<string, Value<N, M>>): (r: (Option<seq<N>>, bool))
  {
    if NodesKey !in m then (prev, true)
    else match m[NodesKey]
      case NodeArray(ns) => (Some(ns), true)
      case Null => (None, true)
      case _ => (prev, false)
  }

  /** The messages field, like the nodes field. */
  function DecodeMessages<N, M>(prev: Option<seq<M>>, m: map<string, Value<N, M>>): (r: (Option<seq<M>>, bool))
  {
    if MessagesKey !in m then (prev, true)
    else match m[MessagesKey]
      case TextArray(ts) => (Some(ts), true)
      case Null => (None, true)
      case _ => (prev, false)
  }

  /**
   * Decoding the members of a JSON object into an existing config. A field
   * whose key is absent, whose value has the wrong kind, or (for a string) is
   * null keeps its old value; unknown keys are ignored; every key whose value
   * had the wrong kind is reported.
   */
  function DecodeObject<N, M>(base: Config<N, M>, m: map<string, Value<N, M>>): (r: Decoded<N, M>)
    ensures r.config.Action == (if ActionKey in m && m[ActionKey].Str? then m[ActionKey].s else base.Action)
    ensures r.config.Method == (if MethodKey in m && m[MethodKey].Str? then m[MethodKey].s else base.Method)
    ensures r.config.Nodes ==
      (if NodesKey in m && m[NodesKey].NodeArray? then Some(m[NodesKey].nodes)
       else if NodesKey in m && m[NodesKey].Null? then None
       else base.Nodes)
    ensures r.config.Messages ==
      (if MessagesKey in m && m[MessagesKey].TextArray? then Some(m[MessagesKey].texts)
       else if MessagesKey in m && m[MessagesKey].Null? then None
       else base.Messages)
    ensures r.mismatched <= m.Keys * {ActionKey, MessagesKey, MethodKey, NodesKey}
    ensures ActionKey in r.mismatched <==> ActionKey in m && !m[ActionKey].Str? && !m[ActionKey].Null?
    ensures MethodKey in r.mismatched <==> MethodKey in m && !m[MethodKey].Str? && !m[MethodKey].Null?
    ensures NodesKey in r.mismatched <==> NodesKey in m && !m[NodesKey].NodeArray? && !m[NodesKey].Null?
    ensures MessagesKey in r.mismatched <==> MessagesKey in m && !m[MessagesKey].TextArray? && !m[MessagesKey].Null?
  {
    var (action, okAction) := DecodeString(base.Action, m, ActionKey);
    var (messages, okMessages) := DecodeMessages(base.Messages, m);
    var (httpMethod, okMethod) := DecodeString(base.Method, m, MethodKey);
    var (nodes, okNodes) := DecodeNodes(base.Nodes, m);
    var mismatched :=
      (if okAction then {} else {ActionKey}) + (if okMessages then {} else {MessagesKey}) +
      (if okMethod then {} else {MethodKey}) + (if okNodes then {} else {NodesKey});
    Decoded(Config(action, messages, httpMethod, nodes), mismatched)
  }

}

=== FILE: Json.dfy ===
/**
 * JSON at the level of values, as `encoding/json` hands them over: the bytes
 * themselves are not modelled. The element types of the two arrays the
 * recovery method config carries (UI nodes and UI texts) stay opaque as the
 * type parameters N and M.
 */
module Json {

  /** A JSON value stored under one key of an object. */
  datatype Value<N, M> =
    | Str(s: string)             // a JSON string
    | Null                       // the literal null
    | NodeArray(nodes: seq<N>)   // an array whose elements decode as UI nodes
    | TextArray(texts: seq<M>)   // an array whose elements decode as UI texts
    | Other                      // a number, a boolean or a nested object

  /** A whole JSON document, as produced by Marshal or given to Unmarshal. */
  datatype Document<N, M> =
    | DocNull                                   // the literal null
    | DocObject(members: map<string, Value<N, M>>)  // an object
    | DocOther                                  // a well-formed array, string, number or boolean
    | DocMalformed                              // input that is not valid JSON
}

=== FILE: NullableConfig.dfy ===
/**
 * The nullable wrapper generated beside the recovery method config: a
 * pointer to a config plus a flag saying whether it was set, with JSON hooks
 * that pass through to the wrapped config.
 */
module Nullable {
  import opened Wrappers
  import opened Json
  import HttpClient

  /** The errors json.Unmarshal can report to UnmarshalJSON. */
  datatype UnmarshalError =
    | SyntaxError                            // the input is not valid JSON
    | NotAnObject                            // valid JSON, but neither null nor an object
    | FieldTypeMismatch(fields: set<string>) // these keys held a value of the wrong kind

  /** The wrapper: a pointer to a config and whether it was set. */
  class NullableRecoveryFlowMethodConfig<N, M> {
    var value: HttpClient.RecoveryFlowMethodConfig?<N, M>
    var isSet: bool

    /** NewNullableRecoveryFlowMethodConfig: wraps the pointer and marks it set. */
    constructor (val: HttpClient.RecoveryFlowMethodConfig?<N, M>)
      ensures Get() == val && IsSet()
    {
      value := val;
      isSet := true;
    }

    function Get(): (r: HttpClient.RecoveryFlowMethodConfig?<N, M>)
      reads this
      ensures r == value
    {
      value
    }

    function IsSet(): (r: bool)
      reads this
      ensures r == isSet
    {
      isSet
    }

    method Set(val: HttpClient.RecoveryFlowMethodConfig?<N, M>)
      modifies this
      ensures Get() == val && IsSet()
    {
      value := val;
      isSet := true;
    }

    method Unset()
      modifies this
      ensures Get() == null && !IsSet()
    {
      value := null;
      isSet := false;
    }

    /** MarshalJSON: the wrapped pointer alone, null when it is nil; isSet plays no part. */
    function MarshalJSON(): (r: Document<N, M>)
      reads this, value
      ensures r == DocNull <==> value == null
      ensures value != null ==> r == DocObject(HttpClient.MarshalJSON(value.State()))
    {
      if value == null then DocNull else DocObject(HttpClient.MarshalJSON(value.State()))
    }

    /**
     * UnmarshalJSON, with the byte-level parse abstracted as `src`. The
     * wrapper is marked set whatever the input. Invalid JSON changes nothing
     * else; null makes the pointer nil; any other input first allocates a
     * zero config if the pointer is nil; an object is then decoded into the
     * pointed-to config in place.
     */
    method UnmarshalJSON(src: Document<N, M>) returns (err: Option<UnmarshalError>)
      modifies this, value
      ensures isSet
      ensures src.DocMalformed? ==>
        && err == Some(SyntaxError)
        && value == old(value)
        && (value != null ==> value.State() == old(value.State()))
      ensures src.DocNull? ==>
        && err == None
        && value == null
        && (old(value) != null ==> old(value).State() == old(value.State()))
      ensures src.DocOther? ==>
        && err == Some(NotAnObject)
        && value != null
        && (old(value) == null ==> fresh(value) && value.State() == HttpClient.ZeroConfig())
        && (old(value) != null ==> value == old(value) && value.State() == old(value.State()))
      ensures src.DocObject? ==>
        var d := HttpClient.DecodeObject(if old(value) == null then HttpClient.ZeroConfig() else old(value.State()), src.members);
        && value != null
        && value.State() == d.config
        && (old(value) == null ==> fresh(value))
        && (old(value) != null ==> value == old(value))
        && err == (if d.mismatched == {} then None else Some(FieldTypeMismatch(d.mismatched)))
    {
      isSet := true;
      if src.DocMalformed? {
        err := Some(SyntaxError);
      } else if src.DocNull? {
        value := null;
        err := None;
      } else if src.DocOther? {
        if value == null {
          value := new HttpClient.RecoveryFlowMethodConfig.WithDefaults();
        }
        err := Some(NotAnObject);
      } else {
        var target := value;
        if target == null {
          target := new HttpClient.RecoveryFlowMethodConfig.WithDefaults();
        }
        var d := HttpClient.DecodeObject(target.State(), src.members);
        target.Action, target.Messages, target.Method, target.Nodes :=
          d.config.Action, d.config.Messages, d.config.Method, d.config.Nodes;
        value := target;
        err := if d.mismatched == {} then None else Some(FieldTypeMismatch(d.mismatched));
      }
    }
  }
}

=== FILE: Properties.dfy ===
/**
 * Properties of the recovery method config model that relate several of its
 * operations: presence reporting across the getters, what serialisation
 * keeps, and what a decoder of that serialisation gets back.
 */
module Properties {
  import opened Wrappers
  import opened Json
  import opened HttpClient
  import Nullable

  /** On a nil receiver every getter gives the zero value and every presence check false. */
  lemma NilReceiverGivesZeroValues<N, M>()
    ensures GetAction<N, M>(null) == "" && GetMethod<N, M>(null) == ""
    ensures GetNodes<N, M>(null) == None && GetMessages<N, M>(null) == None
    ensures GetActionOk<N, M>(null) == (None, false) && GetMethodOk<N, M>(null) == (None, false)
    ensures GetNodesOk<N, M>(null) == (None, false) && GetMessagesOk<N, M>(null) == (None, false)
    ensures !HasMessages<N, M>(null)
  {
  }

  /**
   * On a non-nil receiver the three required fields are always reported
   * present, even when empty or nil; only Messages tracks presence, and
   * HasMessages and GetMessagesOk agree on it.
   */
  lemma PresenceReporting<N, M>(o: RecoveryFlowMethodConfig?<N, M>)
    ensures o != null ==> GetActionOk(o).1 && GetMethodOk(o).1 && GetNodesOk(o).1
    ensures HasMessages(o) == GetMessagesOk(o).1
    ensures HasMessages(o) <==> GetMessages(o).Some?
  {
  }

  /** The serialised object carries `messages` exactly when HasMessages holds. */
  lemma MessagesEmittedIffSet<N, M>(o: RecoveryFlowMethodConfig<N, M>)
    ensures MessagesKey in MarshalJSON(o.State()) <==> HasMessages(o)
  {
  }

  /** Decoding the serialised object into a zero config gives back the config, with no type error. */
  lemma MarshalRoundTrip<N, M>(c: Config<N, M>)
    ensures DecodeObject(ZeroConfig(), MarshalJSON(c)) == Decoded(c, {})
  {
  }

  /**
   * Decoding the serialised object into an existing config replaces every
   * field except Messages when the serialised config had none: the old
   * messages then survive.
   */
  lemma MarshalDecodeIntoExisting<N, M>(base: Config<N, M>, c: Config<N, M>)
    ensures DecodeObject(base, MarshalJSON(c)) ==
      Decoded(c.(Messages := if c.Messages.Some? then c.Messages else base.Messages), {})
  {
  }

  /**
   * The objects MarshalJSON can produce: only the four known keys, the three
   * required ones present, strings for action and method, an array or null
   * for nodes, an array for messages.
   */
  ghost predicate Canonical<N, M>(m: map<string, Value<N, M>>)
  {
    && m.Keys <= {ActionKey, MessagesKey, MethodKey, NodesKey}
    && ActionKey in m && m[ActionKey].Str?
    && MethodKey in m && m[MethodKey].Str?
    && NodesKey in m && (m[NodesKey].NodeArray? || m[NodesKey].Null?)
    && (MessagesKey in m ==> m[MessagesKey].TextArray?)
  }

  /** Every serialised config is canonical. */
  lemma MarshalIsCanonical<N, M>(c: Config<N, M>)
    ensures Canonical(MarshalJSON(c))
  {
  }

  /** The other direction: a canonical object, decoded and serialised again, is unchanged. */
  lemma DecodeMarshalRoundTrip<N, M>(m: map<string, Value<N, M>>)
    requires Canonical(m)
    ensures DecodeObject(ZeroConfig(), m).mismatched == {}
    ensures MarshalJSON(DecodeObject(ZeroConfig(), m).config) == m
  {
  }

  /** The serialised objects are exactly the canonical ones. */
  lemma CanonicalIffSerialised<N, M>(m: map<string, Value<N, M>>)
    ensures Canonical(m) <==> exists c: Config<N, M> :: MarshalJSON(c) == m
  {
    if Canonical(m) {
      DecodeMarshalRoundTrip(m);
      var c := DecodeObject(ZeroConfig(), m).config;
      assert MarshalJSON(c) == m;
    } else if exists c: Config<N, M> :: MarshalJSON(c) == m {
      var c: Config<N, M> :| MarshalJSON(c) == m;
      MarshalIsCanonical(c);
      assert false;
    }
  }

  /** Serialisation loses nothing: two configs with the same map are equal. */
  lemma MarshalInjective<N, M>(a: Config<N, M>, b: Config<N, M>)
    requires MarshalJSON(a) == MarshalJSON(b)
    ensures a == b
  {
  }

  /** The wrapper's serialisation depends on the wrapped pointer only, not on isSet. */
  lemma NullableMarshalIgnoresIsSet<N, M>(x: Nullable.NullableRecoveryFlowMethodConfig<N, M>,
                                          y: Nullable.NullableRecoveryFlowMethodConfig<N, M>)
    requires x.value == y.value
    ensures x.MarshalJSON() == y.MarshalJSON()
  {
  }

  /**
   * Serialising a config through a wrapper and decoding the result into a
   * wrapper holding nil gives back the same field values.
   */
  method NullableRoundTrip<N, M>(c: Config<N, M>) returns (back: Config<N, M>, err: Option<Nullable.UnmarshalError>)
    ensures back == c && err == None
  {
    var original := new RecoveryFlowMethodConfig.New(c.Action, c.Method, c.Nodes);
    original.SetMessages(c.Messages);
    var source := new Nullable.NullableRecoveryFlowMethodConfig(original);
    var doc := source.MarshalJSON();
    var target := new Nullable.NullableRecoveryFlowMethodConfig(null);
    err := target.UnmarshalJSON(doc);
    back := target.Get().State();
  }
}

=== FILE: Wrappers.dfy ===
/** Optional values: the model's stand-in for Go's nil slices and nil pointers to values. */
module Wrappers {

  /** `None` is Go's nil; `Some(v)` a non-nil value, which may itself be empty. */
  datatype Option<+T> = None | Some(value: T)
}
